=== FILE: README.md ===
# corrosive_engine window/surface lifecycle in Dafny

This project models the core of `corrosive_engine`, a small wgpu/winit rendering engine. The model
covers how the engine:

- creates its window;
- negotiates and configures the presentation surface;
- reconfigures the surface when the window is resized;
- renders a frame as acquire → record → submit → present;
- dispatches window events in its single-threaded event loop.

Everything is pure. Each operation returns its new state together with a trace of `Effect`s: the
calls the engine makes into winit, wgpu and standard error, in order. No real objects stand behind
those calls. Answers from outside the engine are inputs:

- `Host` carries the window's `inner_size()` and `scale_factor()` and the result of
  `get_current_texture()` during one dispatch;
- `ToLogical` is the floating-point `to_logical` conversion, passed as a function parameter.

Files and modules, following the crate:

| file | module | models |
|---|---|---|
| `error.dfy` | `CoreError` | `core/error.rs`: `EngineError` and its `Display` messages |
| `window.dfy` | `CoreWindow` | `core/window.rs`: `dimensions_valid`, `create` |
| `renderer.dfy` | `CoreRenderer` | `core/renderer.rs`: format choice, initial configuration, `resize`, `render` |
| `application.dfy` | `CoreApplication` | `core/application.rs`: `new`, `resize`, the closures of `run` and `run_no_overhead` |
| `lifecycle.dfy` | `Lifecycle` | properties that span several calls: resize series, event triage, whole sessions, scenarios |
| `base.dfy`, `winit.dfy`, `wgpu.dfy`, `effects.dfy` | `Base`, `Winit`, `Wgpu`, `Effects` | `u32`, `Option`/`Result`, library types as plain data, the effect trace |

Some details are modelled exactly as the code has them:

- The first surface configuration uses the window's *physical* `inner_size()`. Every later resize
  uses a *logical* size. `Lifecycle.LostRecoveryRescalesOnHiDpi` shows the effect at scale factor 2.
- Recovery from a lost surface goes through the same validity guard. A zero current size therefore
  means no reconfiguration (`Lifecycle.RedrawLostAtZeroSizeKeepsState`).
- `Renderer::resize` does no validation of its own and reconfigures even when the size is
  unchanged. The guard lives only in `Application::resize`.

Behaviour of the code worth knowing:

- `run` never returns `Ok(())`: winit's `event_loop.run` does not return, so a close request ends the
  process instead of handing control back. The model returns the `Session` the loop's closure holds
  at that point: its state, its control flow and the trace.
- `EventLoopElapsed` cannot be reached through the public API. `run` consumes the application, and
  `run_no_overhead` never returns after taking the loop. The model keeps the branch, and
  `Lifecycle.RunIsSingleUse` states the single-use check for both entry points.
- Construction reports no errors of its own: `Renderer::new` unwraps and indexes, so it panics. The
  panics that come from indexing an empty capability list are modelled as `Err(InitPanic)`.

## Model

| member | source | states |
|---|---|---|
| `CoreError.Display` | corrosive_engine/src/core/error.rs:12-17 | each error has its message, and each message belongs to exactly one error |
| `CoreError.ParseDisplay` | corrosive_engine/src/core/error.rs:10-19 | displaying an error loses nothing: the message gives back the error |
| `CoreError.DisplayInjective` | corrosive_engine/src/core/error.rs:12-17 | two errors have the same message only if they are the same error |
| `CoreWindow.DimensionsValid` | corrosive_engine/src/core/window.rs:54-56 | a size is valid exactly when it encloses a non-empty area |
| `CoreWindow.DimensionsValidExample` | corrosive_engine/src/core/window.rs:48-52 | 800x600 is valid and 0x600 is not |
| `CoreWindow.Create` | corrosive_engine/src/core/window.rs:15-31 | invalid sizes fail with `DimensionError`; an OS failure is passed on; otherwise the window has the given title and inner size |
| `CoreWindow.CreateChecksBeforeBuilding` | corrosive_engine/src/core/window.rs:21-23 | with invalid dimensions the result does not depend on the OS's answer |
| `CoreRenderer.FirstSrgb` | corrosive_engine/src/core/renderer.rs:41-46 | finds the position of the first sRGB format, with none before it, or reports that there is none |
| `CoreRenderer.SelectFormat` | corrosive_engine/src/core/renderer.rs:40-47 | picks a listed format: the first sRGB one if any exists, else the first one; only an empty list fails |
| `CoreRenderer.BuildPipeline` | corrosive_engine/src/core/renderer.rs:84-88 | the pipeline's colour target has the surface format it was built for |
| `CoreRenderer.New` | corrosive_engine/src/core/renderer.rs:40-57 | fails only on an empty capability list; otherwise the configuration uses the selected format, the physical inner size and the first present and alpha modes, is applied once, and matches the pipeline |
| `CoreRenderer.Resize` | corrosive_engine/src/core/renderer.rs:117-122 | any size, even zero, becomes the configured size; nothing else changes; the surface is reconfigured exactly once |
| `CoreRenderer.ResizeToSameSizeReconfigures` | corrosive_engine/src/core/renderer.rs:117-122 | resizing to the current size keeps the state but still reconfigures the surface |
| `CoreRenderer.Render` | corrosive_engine/src/core/renderer.rs:124-163 | a failed acquisition returns that same error, and its trace is the acquisition alone; after a successful one there is one draw, one submit and one present, in that order |
| `CoreRenderer.FrameTraceShape` | corrosive_engine/src/core/renderer.rs:154-162 | the recorded frame draws vertices 0..3 and instance 0..1, then submits once, then presents once |
| `CoreApplication.New` | corrosive_engine/src/core/application.rs:29-36 | the application holds the event loop, the given window and exactly the renderer `Renderer::new` builds, at the physical inner size, with that renderer's single configuration as the only effect; it fails exactly when `Renderer::new` does |
| `CoreApplication.PollOrWait` | corrosive_engine/src/core/application.rs:121-125 | high-performance mode polls and otherwise the loop waits; neither setting exits |
| `CoreApplication.Processed` | corrosive_engine/src/core/application.rs:82-84 | no window event is ever reported as already processed, so none is kept from the built-in handling |
| `CoreApplication.Update` | corrosive_engine/src/core/application.rs:94 | the per-frame update keeps the event loop, the window and the renderer |
| `CoreApplication.Resize` | corrosive_engine/src/core/application.rs:86-92 | invalid sizes change nothing and cause no effect; a valid size becomes the window and surface size, with one reconfiguration |
| `CoreApplication.Redraw` | corrosive_engine/src/core/application.rs:158-178 | exit is requested exactly when acquisition ran out of memory; the observer is never called; the fixed settings are kept |
| `CoreApplication.Builtin` | corrosive_engine/src/core/application.rs:131-180 | exit is requested exactly on this window's close request or an out-of-memory redraw of this window |
| `CoreApplication.HandleEvent` | corrosive_engine/src/core/application.rs:120-181 | each event sets poll or wait as chosen, then calls the observer exactly once, then the built-in handling runs |
| `CoreApplication.Drive` | corrosive_engine/src/core/application.rs:119-120 | the trace only grows, the window keeps its identity and the renderer its fixed settings |
| `CoreApplication.Run` | corrosive_engine/src/core/application.rs:107-120 | fails with `EventLoopElapsed` exactly when the loop is gone; otherwise the loop is taken, leaving none behind |
| `CoreApplication.HandleEventNoOverhead` | corrosive_engine/src/core/application.rs:205-213 | one event gives exactly two effects: poll or wait, then the observer call |
| `CoreApplication.DriveNoOverhead` | corrosive_engine/src/core/application.rs:205-214 | the state never changes, exit is never set, and every event adds two trace entries |
| `CoreApplication.RunNoOverhead` | corrosive_engine/src/core/application.rs:193-214 | the same single-use check; otherwise only the event loop is taken from the application |
| `Lifecycle.ResizeLastWins` | corrosive_engine/src/core/application.rs:86-92 | a valid resize erases the effect of whatever resize came before it |
| `Lifecycle.ResizeRepeatReconfigures` | corrosive_engine/src/core/application.rs:90-91 | repeating a valid resize keeps the state and reconfigures the surface again |
| `Lifecycle.ResizeSeries` | corrosive_engine/src/core/application.rs:86-92 | after any series of resizes the state is as if only the last valid one was made, or unchanged if none was valid |
| `Lifecycle.ForeignWindowIgnored` | corrosive_engine/src/core/application.rs:132-158 | window events and redraws for another window change nothing beyond the flow and the observer call |
| `Lifecycle.OtherEventsIgnored` | corrosive_engine/src/core/application.rs:153-179 | other window events for this window, and events of any other kind, change nothing beyond the flow setting and the observer call |
| `Lifecycle.CloseRequestedExits` | corrosive_engine/src/core/application.rs:136-140 | a close request for this window always exits and changes no state; its trace is the flow setting, the observer call and the exit |
| `Lifecycle.MainEventsClearedRequestsRedraw` | corrosive_engine/src/core/application.rs:157 | clearing pending events requests exactly one redraw and nothing else |
| `Lifecycle.ResizedUsesWindowScale` | corrosive_engine/src/core/application.rs:141-145 | `Resized` is a guarded resize to the new size converted at the window's scale factor: its state, and its effects after the flow setting and the observer call, are exactly that resize's (`SetInnerSize` then one configuration, or nothing for an invalid size) |
| `Lifecycle.ScaleChangeUsesEventScale` | corrosive_engine/src/core/application.rs:146-152 | `ScaleFactorChanged` is a guarded resize to the proposed size converted at the new scale factor: its state, and its effects after the flow setting and the observer call, are exactly that resize's |
| `Lifecycle.RedrawSucceeds` | corrosive_engine/src/core/application.rs:160-161 | a successful frame keeps the state and the flow, with one draw, submit and present and no reconfiguration; the trace is the flow setting, the observer call, the acquisition and the recorded frame |
| `Lifecycle.RedrawLostResizes` | corrosive_engine/src/core/application.rs:162-168 | a lost surface causes exactly one guarded resize to the current logical size: the trace after the flow setting, the observer call and the acquisition is exactly that resize's (`SetInnerSize` then one configuration, or nothing at zero size); nothing is submitted or presented, and the loop goes on |
| `Lifecycle.RedrawLostAtZeroSizeKeepsState` | corrosive_engine/src/core/application.rs:163-167 | if the current size is zero, a lost surface changes nothing |
| `Lifecycle.RedrawOutOfMemoryExits` | corrosive_engine/src/core/application.rs:169-172 | running out of memory exits in the same dispatch with the state kept; the trace after the flow setting and the observer call is the acquisition and the exit, nothing else |
| `Lifecycle.RedrawOtherErrorLogs` | corrosive_engine/src/core/application.rs:173-176 | any other acquisition error is logged, the state is kept and the loop goes on; the trace after the flow setting and the observer call is the acquisition and the log entry |
| `Lifecycle.FirstExitEndsSession` | corrosive_engine/src/core/application.rs:138-140 | in the modelled loop, the first close request or out-of-memory redraw is the last event dispatched: the session ends in exit as if no later event had arrived, and the observer has seen exactly that event and the ones before it |
| `Lifecycle.OutOfMemoryEndsSession` | corrosive_engine/src/core/application.rs:169-172 | in the modelled loop, an out-of-memory redraw ends the session on that dispatch, and later events are never dispatched |
| `Lifecycle.ObserverSeesEveryEvent` | corrosive_engine/src/core/application.rs:127-128 | while no event is a close request or an out-of-memory redraw, every event is dispatched, the observer is called exactly once per event, and the flow stays poll or wait |
| `Lifecycle.RunIsSingleUse` | corrosive_engine/src/core/application.rs:113-118 | after one `run`, both `run` and `run_no_overhead` fail with `EventLoopElapsed` |
| `Lifecycle.RunKeepsPipelineMatched` | corrosive_engine/src/core/renderer.rs:84-85 | for a whole session the pipeline keeps drawing into the surface's format, and that format never changes |
| `Lifecycle.NoOverheadIsDispatchPrefix` | corrosive_engine/src/core/application.rs:205-213 | `run_no_overhead`'s closure is the first two steps of `run`'s closure, without the built-in handling |
| `Lifecycle.NoOverheadTrace` | corrosive_engine/src/core/application.rs:205-214 | for each event, `run_no_overhead` sets the flow and then calls the observer |
| `Lifecycle.NoOverheadHasNoBuiltins` | corrosive_engine/src/core/application.rs:205-214 | `run_no_overhead` never reconfigures, requests a redraw or renders, and calls the observer once per event |
| `Lifecycle.OpenResizeClose` | corrosive_engine/src/core/application.rs:138-145 | 800x600 at start; after a resize to 1024x768 the size is 1024x768; 0x0 is refused; close stops the loop |
| `Lifecycle.LostRecoveryRescalesOnHiDpi` | corrosive_engine/src/core/renderer.rs:51-52 | the initial configuration is in physical pixels, so at scale 2 recovering a lost surface halves the configured size |

## Left out

- Creation of the GPU instance, surface, adapter and device, and their `unwrap` panics. These are foreign calls; the model starts from the capabilities the adapter reports.
- Shader module, pipeline layout, texture view, command encoder and render pass objects. These are foreign objects; they appear only as data (the pipeline's fixed state) or as trace entries.
- `to_logical` and `scale_factor()`. These are floating-point DPI conversions; they are parameters (`ToLogical`, `Host`), and the conversion to `u32` is part of the parameter.
- The winit runtime. `event_loop.run` never returns and controls which events arrive. The model feeds a finite list of events and stops dispatching once the control flow is `ExitWithCode`. Events a platform may still deliver after exit, such as `LoopDestroyed`, are not modelled.
- The async construction (`pollster::block_on`) and `Default::default`, which builds a real OS window.
- `rename` and `with_name`: they only pass the title on to `set_title`.
- The text printed by `eprintln!`: only a `LogSurfaceError` entry in the trace records it.
- The user's event handler is a bare function pointer with no captured state, so the model records only that it was called.
- winit's `OsError` is reduced to a numeric code in `CreateError.Os`.
- `update` does nothing, so running it before `render` cannot be observed; the model keeps it as the identity.
- `core/geometry.rs` holds vertex data that the draw path never binds.
- The older `src/engine` variant is abandoned and its run loop is commented out.
- `CoreApplication.Run`: its `Ok` result is the session the never-returning loop would hold, not a value `run` hands back.

=== FILE: application.dfy ===
/**
 * The application: one window, its renderer and a single-use event loop, and the
 * per-event dispatch of `run` (observer first, then the built-in lifecycle handling)
 * and of `run_no_overhead` (observer only).
 */
module CoreApplication {
  import opened Base
  import opened Winit
  import opened Wgpu
  import opened Effects
  import opened CoreError
  import opened CoreWindow
  import CoreRenderer

  /** The OS event loop; all that matters here is whether the application still holds it. */
  datatype EventLoop = EventLoop

  datatype Application = Application(eventLoop: Option<EventLoop>, window: Window, renderer: CoreRenderer.Renderer)

  /**
   * What the window system and the surface answer while one event is dispatched: the
   * window's `inner_size()` (physical pixels), its `scale_factor()`, and the result of
   * `get_current_texture()` should a frame be rendered.
   */
  datatype Host = Host(innerSize: PhysicalSize, scaleFactor: real, texture: Result<SurfaceTexture, SurfaceError>)

  /** One event delivered by the loop, with the host's answers during its dispatch. */
  datatype Input = Input(host: Host, event: Event)

  datatype Started = Started(app: Application, effects: seq<Effect>)

  /** The result of a guarded resize. */
  datatype Adjusted = Adjusted(app: Application, effects: seq<Effect>)

  /** The result of the built-in handling of one event: new state, whether exit was requested, effects. */
  datatype Handled = Handled(app: Application, exit: bool, effects: seq<Effect>)

  /** The result of dispatching one event: new state, the control flow left set, effects. */
  datatype Dispatched = Dispatched(app: Application, flow: ControlFlow, effects: seq<Effect>)

  /** A running loop: the state its handler owns, the current control flow, and every effect so far. */
  datatype Session = Session(app: Application, flow: ControlFlow, effects: seq<Effect>)

  /** `ControlFlow::set_exit()` leaves exit code 0. */
  const EXIT := ExitWithCode(0)

  /** The flow every dispatch starts by setting: `set_poll` in high-performance mode, `set_wait` otherwise. */
  function PollOrWait(highPerformance: bool): (f: ControlFlow)
    ensures f.Poll? <==> highPerformance
    ensures f.Wait? <==> !highPerformance
  {
    if highPerformance then Poll else Wait
  }

  /**
   * `Application::new(event_loop, window)`: builds the renderer for the window (from its
   * physical `innerSize`) and stores the event loop for a later `run`.
   */
  function New(eventLoop: EventLoop, window: Window, caps: SurfaceCapabilities, innerSize: PhysicalSize)
    : (r: Result<Started, CoreRenderer.InitPanic>)
    ensures r.Ok? <==> CoreRenderer.New(caps, innerSize).Ok?
    ensures r.Ok? ==>
      && r.value.app.eventLoop == Some(eventLoop)
      && r.value.app.window == window
      && r.value.app.renderer.config.width == innerSize.width
      && r.value.app.renderer.config.height == innerSize.height
      && CoreRenderer.PipelineMatches(r.value.app.renderer)
    ensures r.Ok? ==>
      && r.value.app.renderer == CoreRenderer.New(caps, innerSize).value.renderer
      && r.value.effects == CoreRenderer.New(caps, innerSize).value.effects
    ensures r.Err? ==> r.error == CoreRenderer.New(caps, innerSize).error
  {
    match CoreRenderer.New(caps, innerSize)
    case Err(panic) => Err(panic)
    case Ok(c) => Ok(Started(Application(Some(eventLoop), window, c.renderer), c.effects))
  }

  /** `processed`: whether an observer already handled the event. It never has, so no event is filtered out. */
  predicate Processed(app: Application, event: WindowEvent)
    ensures !Processed(app, event)
  {
    false
  }

  /** `update`: the per-frame state update, an empty seam. */
  function Update(app: Application): (u: Application)
    ensures u.eventLoop == app.eventLoop && u.window == app.window && u.renderer == app.renderer
  {
    app
  }

  /**
   * `Application::resize(new_dimensions)`: ignores invalid dimensions; otherwise sets the
   * window's inner size and then resizes (reconfigures) the renderer.
   */
  function Resize(app: Application, d: LogicalSize): (o: Adjusted)
    ensures !DimensionsValid(d) ==> o.app == app && o.effects == []
    ensures DimensionsValid(d) ==>
      && o.app.window.innerSize == d
      && o.app.renderer.config.width == d.width
      && o.app.renderer.config.height == d.height
      && o.effects == [SetInnerSize(d), ConfigureSurface(o.app.renderer.config)]
    ensures o.app.eventLoop == app.eventLoop
    ensures o.app.window.id == app.window.id && o.app.window.title == app.window.title
    ensures CoreRenderer.SettingsKept(app.renderer, o.app.renderer)
  {
    if !DimensionsValid(d) then Adjusted(app, [])
    else
      var rc := CoreRenderer.Resize(app.renderer, d);
      Adjusted(app.(window := app.window.(innerSize := d), renderer := rc.renderer), [SetInnerSize(d)] + rc.effects)
  }

  /**
   * Handling of a redraw request for this window: render, then triage the result.
   * A lost surface is resized to the window's current logical size, running out of
   * memory exits, and any other error is logged.
   */
  function Redraw(app: Application, toLogical: ToLogical, host: Host): (h: Handled)
    ensures EngineOnly(h.effects)
    ensures h.exit <==> host.texture == Err(OutOfMemory)
    ensures h.app.eventLoop == app.eventLoop
    ensures h.app.window.id == app.window.id && h.app.window.title == app.window.title
    ensures CoreRenderer.SettingsKept(app.renderer, h.app.renderer)
  {
    var frame := CoreRenderer.Render(app.renderer, host.texture);
    SurfaceOnlyIsEngineOnly(frame.effects);
    match frame.result
    case Ok(_) => Handled(app, false, frame.effects)
    case Err(e) =>
      if e == Lost then
        var o := Resize(app, toLogical(host.innerSize, host.scaleFactor));
        EngineOnlyAppend(frame.effects, o.effects);
        Handled(o.app, false, frame.effects + o.effects)
      else if e == OutOfMemory then
        EngineOnlyAppend(frame.effects, [SetControlFlow(EXIT)]);
        Handled(app, true, frame.effects + [SetControlFlow(EXIT)])
      else
        EngineOnlyAppend(frame.effects, [LogSurfaceError(e)]);
        Handled(app, false, frame.effects + [LogSurfaceError(e)])
  }

  /** The events on which the built-in handling asks the loop to exit. */
  predicate ExitsOn(app: Application, input: Input) {
    || input.event == WindowEvent(app.window.id, CloseRequested)
    || (input.event == RedrawRequested(app.window.id) && input.host.texture == Err(OutOfMemory))
  }

  /** The engine's own handling of an event, after the observer has seen it. */
  function Builtin(app: Application, toLogical: ToLogical, input: Input): (h: Handled)
    ensures EngineOnly(h.effects)
    ensures h.exit <==> ExitsOn(app, input)
    ensures h.app.eventLoop == app.eventLoop
    ensures h.app.window.id == app.window.id && h.app.window.title == app.window.title
    ensures CoreRenderer.SettingsKept(app.renderer, h.app.renderer)
  {
    match input.event
    case WindowEvent(id, event) =>
      if id != app.window.id || Processed(app, event) then Handled(app, false, [])
      else (
        match event
        case CloseRequested => Handled(app, true, [SetControlFlow(EXIT)])
        case Resized(size) =>
          var o := Resize(app, toLogical(size, input.host.scaleFactor));
          Handled(o.app, false, o.effects)
        case ScaleFactorChanged(scaleFactor, newInnerSize) =>
          var o := Resize(app, toLogical(newInnerSize, scaleFactor));
          Handled(o.app, false, o.effects)
        case OtherWindowEvent(_) => Handled(app, false, []))
    case MainEventsCleared => Handled(app, false, [RequestRedraw])
    case RedrawRequested(id) =>
      if id != app.window.id then Handled(app, false, [])
      else Redraw(Update(app), toLogical, input.host)
    case OtherEvent(_) => Handled(app, false, [])
  }

  /**
   * The closure `run` hands to the event loop, applied to one event: set poll or wait,
   * call the observer, then apply the built-in handling.
   */
  function HandleEvent(app: Application, highPerformance: bool, toLogical: ToLogical, input: Input): (d: Dispatched)
    ensures |d.effects| >= 2
    ensures d.effects[0] == SetControlFlow(PollOrWait(highPerformance))
    ensures d.effects[1] == CallEventHandler(input.event)
    ensures CountWhere(d.effects, IsHandlerCall) == 1
    ensures d.flow == if ExitsOn(app, input) then EXIT else PollOrWait(highPerformance)
    ensures d.app.eventLoop == app.eventLoop
    ensures d.app.window.id == app.window.id && d.app.window.title == app.window.title
    ensures CoreRenderer.SettingsKept(app.renderer, d.app.renderer)
  {
    var flow := PollOrWait(highPerformance);
    var h := Builtin(app, toLogical, input);
    var effects := [SetControlFlow(flow), CallEventHandler(input.event)] + h.effects;
    CountWhereOne(effects, IsHandlerCall, 1);
    Dispatched(h.app, if h.exit then EXIT else flow, effects)
  }

  /**
   * The event loop running `run`'s closure over `inputs`, one dispatch per event, until
   * the control flow is left at exit.
   */
  function Drive(s: Session, highPerformance: bool, toLogical: ToLogical, inputs: seq<Input>): (r: Session)
    ensures |s.effects| <= |r.effects| && r.effects[..|s.effects|] == s.effects
    ensures r.app.eventLoop == s.app.eventLoop
    ensures r.app.window.id == s.app.window.id && r.app.window.title == s.app.window.title
    ensures CoreRenderer.SettingsKept(s.app.renderer, r.app.renderer)
    decreases |inputs|
  {
    if |inputs| == 0 || s.flow.ExitWithCode? then s
    else
      var d := HandleEvent(s.app, highPerformance, toLogical, inputs[0]);
      var next := Session(d.app, d.flow, s.effects + d.effects);
      assert next.effects[..|s.effects|] == s.effects;
      Drive(next, highPerformance, toLogical, inputs[1..])
  }

  /**
   * `run(event_handler, high_performance_mode)`: fails if the event loop was already
   * taken; otherwise takes it and drives it. The loop starts in winit's default flow, `Poll`.
   */
  function Run(app: Application, highPerformance: bool, toLogical: ToLogical, inputs: seq<Input>)
    : (r: Result<Session, EngineError>)
    ensures app.eventLoop.None? <==> r == Err(EventLoopElapsed)
    ensures r.Ok? ==> r.value.app.eventLoop.None?
    ensures r.Ok? ==> r.value.app.window.id == app.window.id
    ensures r.Ok? ==> CoreRenderer.SettingsKept(app.renderer, r.value.app.renderer)
  {
    if app.eventLoop.None? then Err(EventLoopElapsed)
    else Ok(Drive(Session(app.(eventLoop := None), Poll, []), highPerformance, toLogical, inputs))
  }

  /** The closure `run_no_overhead` hands to the event loop: set poll or wait, then call the observer. */
  function HandleEventNoOverhead(highPerformance: bool, event: Event): (effects: seq<Effect>)
    ensures |effects| == 2
    ensures effects[0] == SetControlFlow(PollOrWait(highPerformance))
    ensures effects[1] == CallEventHandler(event)
  {
    [SetControlFlow(PollOrWait(highPerformance)), CallEventHandler(event)]
  }

  /** The event loop running `run_no_overhead`'s closure: it never exits, so every event is dispatched. */
  function DriveNoOverhead(s: Session, highPerformance: bool, events: seq<Event>): (r: Session)
    requires !s.flow.ExitWithCode?
    ensures r.app == s.app
    ensures !r.flow.ExitWithCode?
    ensures |r.effects| == |s.effects| + 2 * |events|
    ensures r.effects[..|s.effects|] == s.effects
    decreases |events|
  {
    if |events| == 0 then s
    else
      var s' := Session(s.app, PollOrWait(highPerformance), s.effects + HandleEventNoOverhead(highPerformance, events[0]));
      DriveNoOverhead(s', highPerformance, events[1..])
  }

  /**
   * `run_no_overhead(event_handler, high_performance_mode)`: the same single-use check,
   * then only the observer sees the events.
   */
  function RunNoOverhead(app: Application, highPerformance: bool, events: seq<Event>): (r: Result<Session, EngineError>)
    ensures app.eventLoop.None? <==> r == Err(EventLoopElapsed)
    ensures r.Ok? ==> r.value.app == app.(eventLoop := None)
    ensures r.Ok? ==> |r.value.effects| == 2 * |events| && !r.value.flow.ExitWithCode?
  {
    if app.eventLoop.None? then Err(EventLoopElapsed)
    else Ok(DriveNoOverhead(Session(app.(eventLoop := None), Poll, []), highPerformance, events))
  }
}

=== FILE: base.dfy ===
/** Small shared vocabulary: Rust's `u32`, `Option` and `Result`, and counting over sequences. */
module Base {

  /** Rust's `u32`: the component type of `LogicalSize<u32>` and of the surface configuration. */
  type U32 = x: int | 0 <= x < 0x1_0000_0000

  datatype Option<+T> = None | Some(value: T)

  datatype Result<+T, +E> = Ok(value: T) | Err(error: E)

  /** The number of elements of `s` that satisfy `p`. */
  function CountWhere<T>(s: seq<T>, p: T -> bool): (n: nat)
    ensures n <= |s|
    ensures n == 0 <==> forall i | 0 <= i < |s| :: !p(s[i])
  {
    if |s| == 0 then 0 else (if p(s[0]) then 1 else 0) + CountWhere(s[1..], p)
  }

  /** Counting distributes over concatenation. */
  lemma {:induction false} CountWhereAppend<T>(a: seq<T>, b: seq<T>, p: T -> bool)
    ensures CountWhere(a + b, p) == CountWhere(a, p) + CountWhere(b, p)
  {
    if |a| == 0 {
      assert a + b == b;
    } else {
      assert (a + b)[1..] == a[1..] + b;
      CountWhereAppend(a[1..], b, p);
    }
  }

  /** A sequence in which exactly position `i` satisfies `p` has exactly one such element. */
  lemma CountWhereOne<T>(s: seq<T>, p: T -> bool, i: nat)
    requires i < |s| && p(s[i])
    requires forall j | 0 <= j < |s| && j != i :: !p(s[j])
    ensures CountWhere(s, p) == 1
  {
    var head, tail := s[..i], s[i + 1..];
    assert s == head + [s[i]] + tail;
    CountWhereAppend(head + [s[i]], tail, p);
    CountWhereAppend(head, [s[i]], p);
    assert forall j | 0 <= j < |head| :: !p(head[j]);
    assert forall j | 0 <= j < |tail| :: !p(tail[j]);
  }
}

=== FILE: effects.dfy ===
/**
 * Every call the engine makes into the windowing library, the GPU library or the error
 * stream, recorded as one trace entry. Operations return their new state together with
 * the trace of effects they caused, in order.
 */
module Effects {
  import opened Base
  import opened Winit
  import opened Wgpu

  datatype Effect =
    // event loop
    | SetControlFlow(flow: ControlFlow)
    | CallEventHandler(event: Event)
    // window
    | SetInnerSize(size: LogicalSize)
    | RequestRedraw
    // surface, command encoder and queue
    | ConfigureSurface(config: SurfaceConfiguration)
    | GetCurrentTexture
    | CreateView(texture: SurfaceTexture)
    | BeginRenderPass(view: SurfaceTexture, clear: Color, store: bool)
    | SetPipeline(pipeline: RenderPipeline)
    | Draw(vertices: Range, instances: Range)
    | EndRenderPass
    | Submit(commandBuffers: nat)
    | Present(texture: SurfaceTexture)
    // standard error
    | LogSurfaceError(error: SurfaceError)

  predicate IsConfigure(e: Effect) { e.ConfigureSurface? }

  predicate IsDraw(e: Effect) { e.Draw? }

  predicate IsSubmit(e: Effect) { e.Submit? }

  predicate IsPresent(e: Effect) { e.Present? }

  predicate IsHandlerCall(e: Effect) { e.CallEventHandler? }

  predicate IsRedrawRequest(e: Effect) { e.RequestRedraw? }

  /** True of the effects that touch the GPU: recording, submitting or presenting work. */
  predicate IsGpuWork(e: Effect) {
    e.CreateView? || e.BeginRenderPass? || e.SetPipeline? || e.Draw? || e.EndRenderPass? || e.Submit? || e.Present?
  }

  /** No entry of the trace is a call of the user's event handler: the engine acted alone. */
  predicate EngineOnly(e: seq<Effect>) {
    forall i | 0 <= i < |e| :: !IsHandlerCall(e[i])
  }

  lemma EngineOnlyAppend(a: seq<Effect>, b: seq<Effect>)
    requires EngineOnly(a) && EngineOnly(b)
    ensures EngineOnly(a + b)
  {
  }

  /** Every entry of the trace is surface or queue work: the texture acquisition or GPU work. */
  predicate SurfaceOnly(e: seq<Effect>) {
    forall i | 0 <= i < |e| :: e[i] == GetCurrentTexture || IsGpuWork(e[i])
  }

  lemma SurfaceOnlyIsEngineOnly(e: seq<Effect>)
    requires SurfaceOnly(e)
    ensures EngineOnly(e)
    ensures CountWhere(e, IsConfigure) == 0
  {
    assert forall i | 0 <= i < |e| :: !IsConfigure(e[i]);
  }
}

=== FILE: error.dfy ===
/** The engine's own error type and the messages it displays. */
module CoreError {
  import opened Base

  /** The two failures the engine reports itself; everything else comes from the libraries. */
  datatype EngineError = DimensionError | EventLoopElapsed

  const DIMENSION_MESSAGE: string := "dimensions for 2D objects must be greater than 0"

  const ELAPSED_MESSAGE: string := "cannot run application, event loop has already elapsed"

  /** The `Display` text of each error; each message belongs to exactly one error. */
  function Display(e: EngineError): (s: string)
    ensures e.DimensionError? <==> s == DIMENSION_MESSAGE
    ensures e.EventLoopElapsed? <==> s == ELAPSED_MESSAGE
  {
    match e
    case DimensionError => DIMENSION_MESSAGE
    case EventLoopElapsed => ELAPSED_MESSAGE
  }

  /** Recovers the error a message was displayed from, if it is one of the engine's messages. */
  function Parse(s: string): Option<EngineError>
  {
    if s == DIMENSION_MESSAGE then Some(DimensionError)
    else if s == ELAPSED_MESSAGE then Some(EventLoopElapsed)
    else None
  }

  /** Displaying loses nothing: every error has a message, and parsing it gives back the error. */
  lemma ParseDisplay(e: EngineError)
    ensures Parse(Display(e)) == Some(e)
  {
  }

  /** Display is injective, so a message identifies its error. */
  lemma DisplayInjective(a: EngineError, b: EngineError)
    ensures Display(a) == Display(b) <==> a == b
  {
  }
}

=== FILE: lifecycle.dfy ===
/**
 * Properties of the window/surface lifecycle that relate several calls: sequences of
 * resizes, the outcome of each kind of event, whole sessions of the event loop, and an
 * end-to-end scenario.
 */
module Lifecycle {
  import opened Base
  import opened Winit
  import opened Wgpu
  import opened Effects
  import opened CoreError
  import opened CoreWindow
  import CoreRenderer
  import opened CoreApplication

  // ---------------------------------------------------------------------------
  // Resizing

  /** The last valid size wins: a valid resize erases whatever resize came before it. */
  lemma ResizeLastWins(app: Application, d1: LogicalSize, d2: LogicalSize)
    requires DimensionsValid(d2)
    ensures Resize(Resize(app, d1).app, d2).app == Resize(app, d2).app
  {
  }

  /** Repeating a valid resize is harmless for the state, and the surface is reconfigured again. */
  lemma ResizeRepeatReconfigures(app: Application, d: LogicalSize)
    requires DimensionsValid(d)
    ensures Resize(Resize(app, d).app, d).app == Resize(app, d).app
    ensures CountWhere(Resize(Resize(app, d).app, d).effects, IsConfigure) == 1
  {
    var e := Resize(Resize(app, d).app, d).effects;
    CountWhereOne(e, IsConfigure, 1);
  }

  /** Applying a series of resize requests one after another. */
  function ResizeAll(app: Application, ds: seq<LogicalSize>): Application
    decreases |ds|
  {
    if |ds| == 0 then app else ResizeAll(Resize(app, ds[0]).app, ds[1..])
  }

  /** The last valid size of a series, if any. */
  function LastValid(ds: seq<LogicalSize>): (r: Option<LogicalSize>)
    ensures r.Some? ==> r.value in ds && DimensionsValid(r.value)
    ensures r.None? <==> forall i | 0 <= i < |ds| :: !DimensionsValid(ds[i])
    decreases |ds|
  {
    if |ds| == 0 then None
    else match LastValid(ds[1..])
      case Some(d) => Some(d)
      case None => if DimensionsValid(ds[0]) then Some(ds[0]) else None
  }

  /**
   * After any series of resize requests the application is exactly as if only the last
   * valid one had been made; if none was valid, nothing changed.
   */
  lemma {:induction false} ResizeSeries(app: Application, ds: seq<LogicalSize>)
    ensures ResizeAll(app, ds) == match LastValid(ds)
      case None => app
      case Some(d) => Resize(app, d).app
    decreases |ds|
  {
    if |ds| > 0 {
      var first := Resize(app, ds[0]).app;
      ResizeSeries(first, ds[1..]);
      match LastValid(ds[1..])
      case Some(d) =>
        ResizeLastWins(app, ds[0], d);
      case None =>
    }
  }

  // ---------------------------------------------------------------------------
  // One dispatch of `run`

  /** A dispatch is the flow setting and the observer call, followed by the built-in handling. */
  lemma DispatchShape(app: Application, hp: bool, toLogical: ToLogical, input: Input)
    ensures var d := HandleEvent(app, hp, toLogical, input);
      var h := Builtin(app, toLogical, input);
      && d.app == h.app
      && d.flow == (if h.exit then EXIT else PollOrWait(hp))
      && d.effects == [SetControlFlow(PollOrWait(hp)), CallEventHandler(input.event)] + h.effects
  {
  }

  /** Events addressed to another window change nothing: only the flow is set and the observer called. */
  lemma ForeignWindowIgnored(app: Application, hp: bool, toLogical: ToLogical, input: Input)
    requires || (input.event.WindowEvent? && input.event.windowId != app.window.id)
             || (input.event.RedrawRequested? && input.event.redrawId != app.window.id)
    ensures HandleEvent(app, hp, toLogical, input)
      == Dispatched(app, PollOrWait(hp), [SetControlFlow(PollOrWait(hp)), CallEventHandler(input.event)])
  {
  }

  /**
   * Every other event is left to the observer: window events for this window other than a
   * close request, a resize or a scale change, and events other than window events, clearing
   * and redraw requests, add nothing after the flow setting and the observer call.
   */
  lemma OtherEventsIgnored(app: Application, hp: bool, toLogical: ToLogical, input: Input)
    requires input.event.OtherEvent? || (input.event.WindowEvent? && input.event.event.OtherWindowEvent?)
    ensures HandleEvent(app, hp, toLogical, input)
      == Dispatched(app, PollOrWait(hp), [SetControlFlow(PollOrWait(hp)), CallEventHandler(input.event)])
  {
  }

  /** A close request for this window always exits: no observer can mark it processed. */
  lemma CloseRequestedExits(app: Application, hp: bool, toLogical: ToLogical, host: Host)
    ensures var d := HandleEvent(app, hp, toLogical, Input(host, WindowEvent(app.window.id, CloseRequested)));
      && d.flow == EXIT
      && d.app == app
      && d.effects == [SetControlFlow(PollOrWait(hp)), CallEventHandler(WindowEvent(app.window.id, CloseRequested)), SetControlFlow(EXIT)]
  {
  }

  /** Once pending events are cleared a redraw is requested, for whichever window is involved. */
  lemma MainEventsClearedRequestsRedraw(app: Application, hp: bool, toLogical: ToLogical, host: Host)
    ensures var d := HandleEvent(app, hp, toLogical, Input(host, MainEventsCleared));
      && d.app == app
      && d.flow == PollOrWait(hp)
      && d.effects == [SetControlFlow(PollOrWait(hp)), CallEventHandler(MainEventsCleared), RequestRedraw]
  {
  }

  /** `Resized` converts the new physical size with the window's current scale factor. */
  lemma ResizedUsesWindowScale(app: Application, hp: bool, toLogical: ToLogical, host: Host, size: PhysicalSize)
    ensures var d := HandleEvent(app, hp, toLogical, Input(host, WindowEvent(app.window.id, Resized(size))));
      && d.app == Resize(app, toLogical(size, host.scaleFactor)).app
      && d.flow == PollOrWait(hp)
      && d.effects == HandleEventNoOverhead(hp, WindowEvent(app.window.id, Resized(size)))
                      + Resize(app, toLogical(size, host.scaleFactor)).effects
  {
  }

  /** `ScaleFactorChanged` converts the proposed physical size with the NEW scale factor it carries. */
  lemma ScaleChangeUsesEventScale(app: Application, hp: bool, toLogical: ToLogical, host: Host, scale: real, size: PhysicalSize)
    ensures var d := HandleEvent(app, hp, toLogical, Input(host, WindowEvent(app.window.id, ScaleFactorChanged(scale, size))));
      && d.app == Resize(app, toLogical(size, scale)).app
      && d.flow == PollOrWait(hp)
      && d.effects == HandleEventNoOverhead(hp, WindowEvent(app.window.id, ScaleFactorChanged(scale, size)))
                      + Resize(app, toLogical(size, scale)).effects
  {
  }

  /** The built-in handling of a redraw request for this window is the frame and its triage. */
  lemma OwnRedrawIsRedraw(app: Application, toLogical: ToLogical, host: Host)
    ensures Builtin(app, toLogical, Input(host, RedrawRequested(app.window.id))) == Redraw(app, toLogical, host)
  {
  }

  /** `run_no_overhead`'s closure is `run`'s closure without the built-in handling. */
  lemma NoOverheadIsDispatchPrefix(app: Application, hp: bool, toLogical: ToLogical, input: Input)
    ensures var d := HandleEvent(app, hp, toLogical, input);
      && d.effects[..2] == HandleEventNoOverhead(hp, input.event)
      && d.effects == HandleEventNoOverhead(hp, input.event) + Builtin(app, toLogical, input).effects
  {
  }

  /** A dispatch of a redraw request for this window is `run_no_overhead`'s two entries, then the frame and its triage. */
  lemma OwnRedrawTrace(app: Application, hp: bool, toLogical: ToLogical, host: Host)
    ensures var h := Redraw(app, toLogical, host);
      HandleEvent(app, hp, toLogical, Input(host, RedrawRequested(app.window.id)))
        == Dispatched(h.app, if h.exit then EXIT else PollOrWait(hp), HandleEventNoOverhead(hp, RedrawRequested(app.window.id)) + h.effects)
  {
    OwnRedrawIsRedraw(app, toLogical, host);
    DispatchShape(app, hp, toLogical, Input(host, RedrawRequested(app.window.id)));
  }

  /** The flow setting and the observer call that open every dispatch do no engine work. */
  lemma ObserverPrefixAddsNothing(hp: bool, event: Event, e: seq<Effect>)
    ensures var all := [SetControlFlow(PollOrWait(hp)), CallEventHandler(event)] + e;
      && CountWhere(all, IsDraw) == CountWhere(e, IsDraw)
      && CountWhere(all, IsSubmit) == CountWhere(e, IsSubmit)
      && CountWhere(all, IsPresent) == CountWhere(e, IsPresent)
      && CountWhere(all, IsConfigure) == CountWhere(e, IsConfigure)
  {
    var prefix := [SetControlFlow(PollOrWait(hp)), CallEventHandler(event)];
    assert CountWhere(prefix, IsDraw) == 0 && CountWhere(prefix, IsSubmit) == 0;
    assert CountWhere(prefix, IsPresent) == 0 && CountWhere(prefix, IsConfigure) == 0;
    CountWhereAppend(prefix, e, IsDraw);
    CountWhereAppend(prefix, e, IsSubmit);
    CountWhereAppend(prefix, e, IsPresent);
    CountWhereAppend(prefix, e, IsConfigure);
  }

  /** A successful frame changes no state: one draw, one submit, one present, no reconfiguration. */
  lemma RedrawSucceeds(app: Application, hp: bool, toLogical: ToLogical, innerSize: PhysicalSize, scale: real, t: SurfaceTexture)
    ensures var d := HandleEvent(app, hp, toLogical, Input(Host(innerSize, scale, Ok(t)), RedrawRequested(app.window.id)));
      && d.app == app
      && d.flow == PollOrWait(hp)
      && CountWhere(d.effects, IsDraw) == 1
      && CountWhere(d.effects, IsSubmit) == 1
      && CountWhere(d.effects, IsPresent) == 1
      && CountWhere(d.effects, IsConfigure) == 0
      && d.effects == HandleEventNoOverhead(hp, RedrawRequested(app.window.id))
                      + ([GetCurrentTexture] + CoreRenderer.FrameWork(app.renderer, t))
  {
    var host := Host(innerSize, scale, Ok(t));
    var e := [GetCurrentTexture] + CoreRenderer.FrameWork(app.renderer, t);
    assert Redraw(app, toLogical, host) == Handled(app, false, e);
    OwnRedrawTrace(app, hp, toLogical, host);
    CoreRenderer.FrameTraceShape(app.renderer, t);
    ObserverPrefixAddsNothing(hp, RedrawRequested(app.window.id), e);
    SurfaceOnlyIsEngineOnly(e);
  }

  /**
   * A lost surface is recovered by exactly one guarded resize to the window's current
   * logical size; nothing was submitted or presented, and the loop goes on.
   */
  lemma RedrawLostResizes(app: Application, hp: bool, toLogical: ToLogical, innerSize: PhysicalSize, scale: real)
    ensures var d := HandleEvent(app, hp, toLogical, Input(Host(innerSize, scale, Err(Lost)), RedrawRequested(app.window.id)));
      var current := toLogical(innerSize, scale);
      && d.app == Resize(app, current).app
      && d.flow == PollOrWait(hp)
      && CountWhere(d.effects, IsConfigure) == (if DimensionsValid(current) then 1 else 0)
      && CountWhere(d.effects, IsSubmit) == 0
      && CountWhere(d.effects, IsPresent) == 0
      && d.effects == HandleEventNoOverhead(hp, RedrawRequested(app.window.id))
                      + ([GetCurrentTexture] + Resize(app, current).effects)
  {
    var input := Input(Host(innerSize, scale, Err(Lost)), RedrawRequested(app.window.id));
    var current := toLogical(innerSize, scale);
    var o := Resize(app, current);
    var frame := CoreRenderer.Render(app.renderer, Err(Lost));
    OwnRedrawIsRedraw(app, toLogical, input.host);
    assert Redraw(app, toLogical, input.host) == Handled(o.app, false, frame.effects + o.effects);
    DispatchShape(app, hp, toLogical, input);
    ObserverPrefixAddsNothing(hp, input.event, frame.effects + o.effects);
    SurfaceOnlyIsEngineOnly(frame.effects);
    assert CountWhere(frame.effects, IsSubmit) == 0 && CountWhere(frame.effects, IsPresent) == 0;
    CountWhereAppend(frame.effects, o.effects, IsConfigure);
    CountWhereAppend(frame.effects, o.effects, IsSubmit);
    CountWhereAppend(frame.effects, o.effects, IsPresent);
    if DimensionsValid(current) {
      CountWhereOne(o.effects, IsConfigure, 1);
    }
  }

  /** A lost surface on a window whose current size is zero is not reconfigured at all. */
  lemma RedrawLostAtZeroSizeKeepsState(app: Application, hp: bool, toLogical: ToLogical, innerSize: PhysicalSize, scale: real)
    requires !DimensionsValid(toLogical(innerSize, scale))
    ensures HandleEvent(app, hp, toLogical, Input(Host(innerSize, scale, Err(Lost)), RedrawRequested(app.window.id))).app == app
  {
  }

  /** Running out of memory exits in the same dispatch, without submitting or presenting. */
  lemma RedrawOutOfMemoryExits(app: Application, hp: bool, toLogical: ToLogical, innerSize: PhysicalSize, scale: real)
    ensures var d := HandleEvent(app, hp, toLogical, Input(Host(innerSize, scale, Err(OutOfMemory)), RedrawRequested(app.window.id)));
      && d.app == app
      && d.flow == EXIT
      && CountWhere(d.effects, IsSubmit) == 0
      && CountWhere(d.effects, IsConfigure) == 0
      && d.effects == HandleEventNoOverhead(hp, RedrawRequested(app.window.id)) + [GetCurrentTexture, SetControlFlow(EXIT)]
  {
  }

  /** Any other acquisition error is only logged: the state is kept and the loop goes on. */
  lemma RedrawOtherErrorLogs(app: Application, hp: bool, toLogical: ToLogical, innerSize: PhysicalSize, scale: real, e: SurfaceError)
    requires e != Lost && e != OutOfMemory
    ensures var d := HandleEvent(app, hp, toLogical, Input(Host(innerSize, scale, Err(e)), RedrawRequested(app.window.id)));
      && d.app == app
      && d.flow == PollOrWait(hp)
      && d.effects[|d.effects| - 1] == LogSurfaceError(e)
      && CountWhere(d.effects, IsSubmit) == 0
      && d.effects == HandleEventNoOverhead(hp, RedrawRequested(app.window.id)) + [GetCurrentTexture, LogSurfaceError(e)]
  {
  }

  // ---------------------------------------------------------------------------
  // Sessions

  /** Once exit is set the loop dispatches nothing more. */
  lemma ExitIsFinal(s: Session, hp: bool, toLogical: ToLogical, inputs: seq<Input>)
    requires s.flow == EXIT
    ensures Drive(s, hp, toLogical, inputs) == s
  {
  }

  /**
   * In the modelled loop, which stops dispatching at `ExitWithCode`, running out of memory
   * ends the session on the dispatch that observed it: whatever events were still to come
   * are never dispatched, not even to the observer.
   */
  lemma OutOfMemoryEndsSession(s: Session, hp: bool, toLogical: ToLogical, inputs: seq<Input>)
    requires !s.flow.ExitWithCode?
    requires |inputs| > 0 && inputs[0].event == RedrawRequested(s.app.window.id) && inputs[0].host.texture == Err(OutOfMemory)
    ensures var d := HandleEvent(s.app, hp, toLogical, inputs[0]);
      Drive(s, hp, toLogical, inputs) == Session(d.app, EXIT, s.effects + d.effects)
  {
  }

  /**
   * While no event asks to exit, every event is dispatched and the observer is called
   * exactly once per event.
   */
  lemma {:induction false} ObserverSeesEveryEvent(s: Session, hp: bool, toLogical: ToLogical, inputs: seq<Input>)
    requires !s.flow.ExitWithCode?
    requires forall i | 0 <= i < |inputs| :: !ExitsOn(s.app, inputs[i])
    ensures var r := Drive(s, hp, toLogical, inputs);
      && CountWhere(r.effects, IsHandlerCall) == CountWhere(s.effects, IsHandlerCall) + |inputs|
      && r.flow == (if |inputs| == 0 then s.flow else PollOrWait(hp))
    decreases |inputs|
  {
    if |inputs| > 0 {
      var d := HandleEvent(s.app, hp, toLogical, inputs[0]);
      var s' := Session(d.app, d.flow, s.effects + d.effects);
      assert !ExitsOn(s.app, inputs[0]);
      CountWhereAppend(s.effects, d.effects, IsHandlerCall);
      forall i | 0 <= i < |inputs[1..]|
        ensures !ExitsOn(s'.app, inputs[1..][i])
      {
        assert inputs[1..][i] == inputs[i + 1];
      }
      ObserverSeesEveryEvent(s', hp, toLogical, inputs[1..]);
    }
  }

  /** The session after one dispatch of `run`'s closure. */
  function Next(s: Session, hp: bool, toLogical: ToLogical, input: Input): Session {
    var d := HandleEvent(s.app, hp, toLogical, input);
    Session(d.app, d.flow, s.effects + d.effects)
  }

  /** One turn of the loop: dispatch the first event, add one observer call, keep the window. */
  lemma DriveStep(s: Session, hp: bool, toLogical: ToLogical, inputs: seq<Input>)
    requires !s.flow.ExitWithCode? && |inputs| > 0
    ensures var s' := Next(s, hp, toLogical, inputs[0]);
      && Drive(s, hp, toLogical, inputs) == Drive(s', hp, toLogical, inputs[1..])
      && s'.app.window.id == s.app.window.id
      && CountWhere(s'.effects, IsHandlerCall) == CountWhere(s.effects, IsHandlerCall) + 1
      && (ExitsOn(s.app, inputs[0]) ==> s'.flow == EXIT)
      && (!ExitsOn(s.app, inputs[0]) ==> !s'.flow.ExitWithCode?)
  {
    var d := HandleEvent(s.app, hp, toLogical, inputs[0]);
    CountWhereAppend(s.effects, d.effects, IsHandlerCall);
  }

  /**
   * In the modelled loop, which stops dispatching at `ExitWithCode`, the first event that
   * asks to exit is the last one dispatched: the session ends there
   * exactly as if no later event had arrived, in the exit flow, and the observer has seen
   * that event and each one before it exactly once.
   */
  lemma {:induction false} FirstExitEndsSession(s: Session, hp: bool, toLogical: ToLogical, inputs: seq<Input>, k: nat)
    requires !s.flow.ExitWithCode?
    requires k < |inputs| && ExitsOn(s.app, inputs[k])
    requires forall i | 0 <= i < k :: !ExitsOn(s.app, inputs[i])
    ensures var r := Drive(s, hp, toLogical, inputs);
      && r == Drive(s, hp, toLogical, inputs[..k + 1])
      && r.flow == EXIT
      && CountWhere(r.effects, IsHandlerCall) == CountWhere(s.effects, IsHandlerCall) + k + 1
    decreases k
  {
    var s' := Next(s, hp, toLogical, inputs[0]);
    var prefix := inputs[..k + 1];
    assert prefix[0] == inputs[0];
    assert prefix[1..] == inputs[1..][..k];
    DriveStep(s, hp, toLogical, inputs);
    DriveStep(s, hp, toLogical, prefix);
    if k == 0 {
      ExitIsFinal(s', hp, toLogical, inputs[1..]);
      ExitIsFinal(s', hp, toLogical, prefix[1..]);
    } else {
      forall i | 0 <= i < k - 1
        ensures !ExitsOn(s'.app, inputs[1..][i])
      {
        assert inputs[1..][i] == inputs[i + 1];
      }
      assert inputs[1..][k - 1] == inputs[k];
      FirstExitEndsSession(s', hp, toLogical, inputs[1..], k - 1);
    }
  }

  /** The event loop is single-use: after a `run`, both entry points fail with `EventLoopElapsed`. */
  lemma RunIsSingleUse(app: Application, hp: bool, toLogical: ToLogical, inputs: seq<Input>, more: seq<Input>, events: seq<Event>)
    requires Run(app, hp, toLogical, inputs).Ok?
    ensures var s := Run(app, hp, toLogical, inputs).value;
      && Run(s.app, hp, toLogical, more) == Err(EventLoopElapsed)
      && RunNoOverhead(s.app, hp, events) == Err(EventLoopElapsed)
  {
  }

  /** The pipeline keeps drawing into the surface's format for the whole session. */
  lemma RunKeepsPipelineMatched(app: Application, hp: bool, toLogical: ToLogical, inputs: seq<Input>)
    requires CoreRenderer.PipelineMatches(app.renderer)
    requires app.eventLoop.Some?
    ensures CoreRenderer.PipelineMatches(Run(app, hp, toLogical, inputs).value.app.renderer)
    ensures Run(app, hp, toLogical, inputs).value.app.renderer.config.format == app.renderer.config.format
  {
  }

  /**
   * `run_no_overhead` only sets the flow and calls the observer, event after event:
   * no resize, no redraw request, no frame and no exit ever happen.
   */
  lemma {:induction false} NoOverheadTrace(s: Session, hp: bool, events: seq<Event>)
    requires !s.flow.ExitWithCode?
    ensures var r := DriveNoOverhead(s, hp, events);
      forall i | 0 <= i < |events| :: ObserverPairAt(r.effects, |s.effects| + 2 * i, hp, events[i])
    decreases |events|
  {
    if |events| > 0 {
      var s' := Session(s.app, PollOrWait(hp), s.effects + HandleEventNoOverhead(hp, events[0]));
      var r := DriveNoOverhead(s', hp, events[1..]);
      assert DriveNoOverhead(s, hp, events) == r;
      var n := |s.effects|;
      assert ObserverPairAt(r.effects, n, hp, events[0]) by {
        assert r.effects[..n + 2] == s'.effects;
        assert r.effects[n] == r.effects[..n + 2][n];
        assert r.effects[n + 1] == r.effects[..n + 2][n + 1];
      }
      NoOverheadTrace(s', hp, events[1..]);
      ShiftPairs(r.effects, n, hp, events);
    }
  }

  /** Position `k` of the trace holds the flow setting and position `k + 1` the observer call for `event`. */
  predicate ObserverPairAt(e: seq<Effect>, k: nat, hp: bool, event: Event) {
    k + 1 < |e| && e[k] == SetControlFlow(PollOrWait(hp)) && e[k + 1] == CallEventHandler(event)
  }

  lemma ShiftPairs(e: seq<Effect>, n: nat, hp: bool, events: seq<Event>)
    requires |events| > 0 && ObserverPairAt(e, n, hp, events[0])
    requires forall j | 0 <= j < |events[1..]| :: ObserverPairAt(e, n + 2 + 2 * j, hp, events[1..][j])
    ensures forall i | 0 <= i < |events| :: ObserverPairAt(e, n + 2 * i, hp, events[i])
  {
    forall i | 1 <= i < |events|
      ensures ObserverPairAt(e, n + 2 * i, hp, events[i])
    {
      var j := i - 1;
      assert events[1..][j] == events[i];
      assert n + 2 + 2 * j == n + 2 * i;
    }
  }

  /** Consequently a no-overhead session never reconfigures, requests a redraw or renders. */
  lemma NoOverheadHasNoBuiltins(app: Application, hp: bool, events: seq<Event>)
    requires app.eventLoop.Some?
    ensures var r := RunNoOverhead(app, hp, events).value;
      && CountWhere(r.effects, IsConfigure) == 0
      && CountWhere(r.effects, IsRedrawRequest) == 0
      && CountWhere(r.effects, IsGpuWork) == 0
      && CountWhere(r.effects, IsHandlerCall) == |events|
  {
    var s := Session(app.(eventLoop := None), Poll, []);
    var r := RunNoOverhead(app, hp, events).value;
    NoOverheadTrace(s, hp, events);
    assert r == DriveNoOverhead(s, hp, events);
    forall k | 0 <= k < |r.effects|
      ensures r.effects[k].SetControlFlow? || r.effects[k].CallEventHandler?
      ensures r.effects[k].CallEventHandler? <==> k % 2 == 1
    {
      var i := k / 2;
      assert k == 2 * i + k % 2;
      assert ObserverPairAt(r.effects, 2 * i, hp, events[i]);
    }
    HandlerCallsAtOddPositions(r.effects, |events|);
  }

  /** A trace of `n` flow/observer pairs holds exactly `n` observer calls. */
  lemma {:induction false} HandlerCallsAtOddPositions(e: seq<Effect>, n: nat)
    requires |e| == 2 * n
    requires forall k | 0 <= k < |e| :: e[k].SetControlFlow? || e[k].CallEventHandler?
    requires forall k | 0 <= k < |e| :: e[k].CallEventHandler? <==> k % 2 == 1
    ensures CountWhere(e, IsHandlerCall) == n
    ensures CountWhere(e, IsConfigure) == 0 && CountWhere(e, IsRedrawRequest) == 0 && CountWhere(e, IsGpuWork) == 0
    decreases n
  {
    if n > 0 {
      var rest := e[2..];
      forall k | 0 <= k < |rest|
        ensures rest[k].SetControlFlow? || rest[k].CallEventHandler?
        ensures rest[k].CallEventHandler? <==> k % 2 == 1
      {
        assert rest[k] == e[k + 2];
      }
      HandlerCallsAtOddPositions(rest, n - 1);
      assert e == [e[0], e[1]] + rest;
      CountWhereAppend([e[0], e[1]], rest, IsHandlerCall);
      assert !e[0].CallEventHandler? && e[1].CallEventHandler?;
    }
  }

  // ---------------------------------------------------------------------------
  // Scenarios

  /**
   * A session from start to close: an 800x600 window is configured at 800x600; a resize
   * to 1024x768 at scale factor 1 is applied; a resize to 0x0 is refused; a close request
   * stops the loop.
   */
  lemma OpenResizeClose(toLogical: ToLogical, caps: SurfaceCapabilities, id: WindowId, t: SurfaceTexture)
    requires |caps.formats| > 0 && |caps.presentModes| > 0 && |caps.alphaModes| > 0
    requires toLogical(PhysicalSize(1024, 768), 1.0) == LogicalSize(1024, 768)
    requires toLogical(PhysicalSize(0, 0), 1.0) == LogicalSize(0, 0)
    ensures Create(LogicalSize(800, 600), "Corrosive Application", Ok(id)).Ok?
    ensures var window := Create(LogicalSize(800, 600), "Corrosive Application", Ok(id)).value;
      && New(EventLoop, window, caps, PhysicalSize(800, 600)).Ok?
      && var app := New(EventLoop, window, caps, PhysicalSize(800, 600)).value.app;
      && app.renderer.config.width == 800 && app.renderer.config.height == 600
      && var inputs := [
           Input(Host(PhysicalSize(1024, 768), 1.0, Ok(t)), WindowEvent(id, Resized(PhysicalSize(1024, 768)))),
           Input(Host(PhysicalSize(0, 0), 1.0, Ok(t)), WindowEvent(id, Resized(PhysicalSize(0, 0)))),
           Input(Host(PhysicalSize(0, 0), 1.0, Ok(t)), WindowEvent(id, CloseRequested))];
      && Run(app, false, toLogical, inputs).Ok?
      && var s := Run(app, false, toLogical, inputs).value;
      && s.flow == EXIT
      && s.app.window.innerSize == LogicalSize(1024, 768)
      && s.app.renderer.config.width == 1024 && s.app.renderer.config.height == 768
  {
    var window := Create(LogicalSize(800, 600), "Corrosive Application", Ok(id)).value;
    var app := New(EventLoop, window, caps, PhysicalSize(800, 600)).value.app;
    var big, zero := LogicalSize(1024, 768), LogicalSize(0, 0);
    var i0 := Input(Host(PhysicalSize(1024, 768), 1.0, Ok(t)), WindowEvent(id, Resized(PhysicalSize(1024, 768))));
    var i1 := Input(Host(PhysicalSize(0, 0), 1.0, Ok(t)), WindowEvent(id, Resized(PhysicalSize(0, 0))));
    var i2 := Input(Host(PhysicalSize(0, 0), 1.0, Ok(t)), WindowEvent(id, CloseRequested));
    var inputs := [i0, i1, i2];
    var s0 := Session(app.(eventLoop := None), Poll, []);
    assert Run(app, false, toLogical, inputs) == Ok(Drive(s0, false, toLogical, inputs));

    ResizedUsesWindowScale(s0.app, false, toLogical, i0.host, PhysicalSize(1024, 768));
    var d0 := HandleEvent(s0.app, false, toLogical, i0);
    var s1 := Session(d0.app, d0.flow, s0.effects + d0.effects);
    assert d0.app == Resize(s0.app, big).app && d0.flow == Wait;
    assert inputs[1..] == [i1, i2];
    assert Drive(s0, false, toLogical, inputs) == Drive(s1, false, toLogical, [i1, i2]);

    ResizedUsesWindowScale(s1.app, false, toLogical, i1.host, PhysicalSize(0, 0));
    var d1 := HandleEvent(s1.app, false, toLogical, i1);
    var s2 := Session(d1.app, d1.flow, s1.effects + d1.effects);
    assert d1.app == s1.app && d1.flow == Wait;
    assert [i1, i2][1..] == [i2];
    assert Drive(s1, false, toLogical, [i1, i2]) == Drive(s2, false, toLogical, [i2]);

    CloseRequestedExits(s2.app, false, toLogical, i2.host);
    var d2 := HandleEvent(s2.app, false, toLogical, i2);
    var s3 := Session(d2.app, d2.flow, s2.effects + d2.effects);
    assert d2.app == s2.app && d2.flow == EXIT;
    assert Drive(s2, false, toLogical, [i2]) == Drive(s3, false, toLogical, []) == s3;
  }

  /**
   * The initial configuration is in physical pixels, every later one in logical units. On
   * a display with scale factor 2, recovering a lost surface halves the configured size
   * although the window itself has not changed.
   */
  lemma LostRecoveryRescalesOnHiDpi(toLogical: ToLogical, caps: SurfaceCapabilities, window: Window, hp: bool)
    requires |caps.formats| > 0 && |caps.presentModes| > 0 && |caps.alphaModes| > 0
    requires toLogical(PhysicalSize(1600, 1200), 2.0) == LogicalSize(800, 600)
    ensures New(EventLoop, window, caps, PhysicalSize(1600, 1200)).Ok?
    ensures var app := New(EventLoop, window, caps, PhysicalSize(1600, 1200)).value.app;
      var d := HandleEvent(app, hp, toLogical, Input(Host(PhysicalSize(1600, 1200), 2.0, Err(Lost)), RedrawRequested(window.id)));
      && app.renderer.config.width == 1600 && app.renderer.config.height == 1200
      && d.app.renderer.config.width == 800 && d.app.renderer.config.height == 600
  {
    var app := New(EventLoop, window, caps, PhysicalSize(1600, 1200)).value.app;
    RedrawLostResizes(app, hp, toLogical, PhysicalSize(1600, 1200), 2.0);
  }
}

=== FILE: renderer.dfy ===
/**
 * The surface/device context: surface-format negotiation and the initial configuration,
 * reconfiguration on resize, and the acquire -> record -> submit -> present frame.
 */
module CoreRenderer {
  import opened Base
  import opened Winit
  import opened Wgpu
  import opened Effects

  /** The renderer's state that outlives a call: the surface configuration and the pipeline built for it. */
  datatype Renderer = Renderer(config: SurfaceConfiguration, pipeline: RenderPipeline)

  /** The panics of construction that come from the capability lists themselves (indexing an empty list). */
  datatype InitPanic = NoSurfaceFormat | NoPresentMode | NoAlphaMode

  datatype Constructed = Constructed(renderer: Renderer, effects: seq<Effect>)

  datatype Reconfigured = Reconfigured(renderer: Renderer, effects: seq<Effect>)

  datatype Frame = Frame(result: Result<(), SurfaceError>, effects: seq<Effect>)

  const CLEAR_COLOR := Color(0.0, 0.0, 0.0, 1.0)

  /** The draw call's vertex range, `0..3`: one triangle generated by the vertex shader. */
  const TRIANGLE_VERTICES := Range(0, 3)

  /** The draw call's instance range, `0..1`. */
  const ONE_INSTANCE := Range(0, 1)

  /** The position of the first sRGB format of the list, if there is one. */
  function FirstSrgb(formats: seq<TextureFormat>): (r: Option<nat>)
    ensures r.Some? ==> r.value < |formats| && IsSrgb(formats[r.value])
    ensures r.Some? ==> forall j | 0 <= j < r.value :: !IsSrgb(formats[j])
    ensures r.None? ==> forall j | 0 <= j < |formats| :: !IsSrgb(formats[j])
  {
    if |formats| == 0 then None
    else if IsSrgb(formats[0]) then Some(0)
    else match FirstSrgb(formats[1..])
      case None => None
      case Some(i) => Some(i + 1)
  }

  /**
   * The surface format `new` picks: the first sRGB format the surface supports, else the
   * first supported format. `None` stands for the panic of indexing an empty list.
   */
  function SelectFormat(formats: seq<TextureFormat>): (r: Option<TextureFormat>)
    ensures r.Some? <==> |formats| > 0
    ensures r.Some? ==> r.value in formats
    ensures (exists i | 0 <= i < |formats| :: IsSrgb(formats[i])) ==>
      r.Some? && IsSrgb(r.value) &&
      exists k | 0 <= k < |formats| :: formats[k] == r.value && forall j | 0 <= j < k :: !IsSrgb(formats[j])
    ensures |formats| > 0 && (forall i | 0 <= i < |formats| :: !IsSrgb(formats[i])) ==> r == Some(formats[0])
  {
    if |formats| == 0 then None
    else match FirstSrgb(formats)
      case Some(i) => Some(formats[i])
      case None => Some(formats[0])
  }

  /** The render pipeline, built once for the surface format. */
  function BuildPipeline(format: TextureFormat): (p: RenderPipeline)
    ensures p.target.format == format
  {
    RenderPipeline(
      vertexEntry := "vs_main",
      fragmentEntry := "fs_main",
      vertexBuffers := 0,
      target := ColorTargetState(format, Some(Replace), WRITE_ALL),
      topology := TriangleList,
      frontFace := Ccw,
      cullMode := Some(Back),
      polygonMode := Fill,
      depthStencil := false,
      sampleCount := 1,
      sampleMask := 0xFFFF_FFFF_FFFF_FFFF,
      alphaToCoverage := false)
  }

  /** The pipeline draws into the surface's own format. */
  predicate PipelineMatches(r: Renderer) {
    r.pipeline.target.format == r.config.format
  }

  /** Everything in the renderer that is fixed once it is built: all of it but the surface size. */
  datatype Settings = Settings(
    usage: TextureUsages,
    format: TextureFormat,
    presentMode: PresentMode,
    alphaMode: CompositeAlphaMode,
    viewFormats: seq<TextureFormat>,
    pipeline: RenderPipeline)

  function SettingsOf(r: Renderer): Settings {
    Settings(r.config.usage, r.config.format, r.config.presentMode, r.config.alphaMode, r.config.viewFormats, r.pipeline)
  }

  /** Only width and height may differ between `r` and `r'`. */
  predicate SettingsKept(r: Renderer, r': Renderer) {
    SettingsOf(r') == SettingsOf(r)
  }

  /**
   * `Renderer::new(window)` from the point where the surface's capabilities are known.
   * `innerSize` is the window's `inner_size()`: its size in PHYSICAL pixels.
   */
  function New(caps: SurfaceCapabilities, innerSize: PhysicalSize): (r: Result<Constructed, InitPanic>)
    ensures r.Err? <==> |caps.formats| == 0 || |caps.presentModes| == 0 || |caps.alphaModes| == 0
    ensures |caps.formats| == 0 ==> r == Err(NoSurfaceFormat)
    ensures r.Ok? ==>
      var c := r.value.renderer.config;
      && Some(c.format) == SelectFormat(caps.formats)
      && c.width == innerSize.width && c.height == innerSize.height
      && c.presentMode == caps.presentModes[0]
      && c.alphaMode == caps.alphaModes[0]
      && c.usage == RenderAttachment
      && c.viewFormats == []
      && PipelineMatches(r.value.renderer)
      && r.value.effects == [ConfigureSurface(c)]
  {
    match SelectFormat(caps.formats)
    case None => Err(NoSurfaceFormat)
    case Some(format) =>
      if |caps.presentModes| == 0 then Err(NoPresentMode)
      else if |caps.alphaModes| == 0 then Err(NoAlphaMode)
      else
        var config := SurfaceConfiguration(
          usage := RenderAttachment,
          format := format,
          width := innerSize.width,
          height := innerSize.height,
          presentMode := caps.presentModes[0],
          alphaMode := caps.alphaModes[0],
          viewFormats := []);
        Ok(Constructed(Renderer(config, BuildPipeline(config.format)), [ConfigureSurface(config)]))
  }

  /**
   * `Renderer::resize(new_dimensions)`: overwrites the configured size with no check of
   * its own and reconfigures the surface on every call.
   */
  function Resize(r: Renderer, d: LogicalSize): (out: Reconfigured)
    ensures out.renderer.config.width == d.width && out.renderer.config.height == d.height
    ensures SettingsKept(r, out.renderer)
    ensures out.effects == [ConfigureSurface(out.renderer.config)]
  {
    var config := r.config.(width := d.width, height := d.height);
    Reconfigured(r.(config := config), [ConfigureSurface(config)])
  }

  /** Resizing to the size already configured changes nothing, yet still reconfigures the surface. */
  lemma ResizeToSameSizeReconfigures(r: Renderer)
    ensures Resize(r, LogicalSize(r.config.width, r.config.height)).renderer == r
    ensures Resize(r, LogicalSize(r.config.width, r.config.height)).effects == [ConfigureSurface(r.config)]
  {
  }

  /** `a` occurs strictly before `b` in the trace. */
  predicate InOrder(s: seq<Effect>, a: Effect, b: Effect) {
    exists i, j | 0 <= i < j < |s| :: s[i] == a && s[j] == b
  }

  /** The work recorded, submitted and presented once a texture has been acquired. */
  function FrameWork(r: Renderer, t: SurfaceTexture): seq<Effect> {
    [CreateView(t), BeginRenderPass(t, CLEAR_COLOR, true), SetPipeline(r.pipeline),
     Draw(TRIANGLE_VERTICES, ONE_INSTANCE), EndRenderPass, Submit(1), Present(t)]
  }

  /**
   * `Renderer::render()`. `acquired` is the surface's answer to `get_current_texture()`;
   * acquisition is the only step that can fail.
   */
  function Render(r: Renderer, acquired: Result<SurfaceTexture, SurfaceError>): (f: Frame)
    ensures |f.effects| > 0 && f.effects[0] == GetCurrentTexture
    ensures SurfaceOnly(f.effects)
    ensures acquired.Err? ==> f.result == Err(acquired.error) && CountWhere(f.effects, IsGpuWork) == 0
    ensures acquired.Err? ==> f.effects == [GetCurrentTexture]
    ensures acquired.Ok? ==> f.result == Ok(())
    ensures acquired.Ok? ==>
      && CountWhere(f.effects, IsDraw) == 1
      && CountWhere(f.effects, IsSubmit) == 1
      && CountWhere(f.effects, IsPresent) == 1
      && InOrder(f.effects, Draw(TRIANGLE_VERTICES, ONE_INSTANCE), Submit(1))
      && InOrder(f.effects, Submit(1), Present(acquired.value))
  {
    match acquired
    case Err(e) => Frame(Err(e), [GetCurrentTexture])
    case Ok(t) =>
      FrameTraceShape(r, t);
      Frame(Ok(()), [GetCurrentTexture] + FrameWork(r, t))
  }

  /** The trace of a frame whose texture was acquired: one draw, then one submit, then one present. */
  lemma FrameTraceShape(r: Renderer, t: SurfaceTexture)
    ensures var e := [GetCurrentTexture] + FrameWork(r, t);
      && e[0] == GetCurrentTexture
      && SurfaceOnly(e)
      && CountWhere(e, IsDraw) == 1
      && CountWhere(e, IsSubmit) == 1
      && CountWhere(e, IsPresent) == 1
      && InOrder(e, Draw(TRIANGLE_VERTICES, ONE_INSTANCE), Submit(1))
      && InOrder(e, Submit(1), Present(t))
  {
    var e := [GetCurrentTexture] + FrameWork(r, t);
    assert e == [GetCurrentTexture, CreateView(t), BeginRenderPass(t, CLEAR_COLOR, true), SetPipeline(r.pipeline),
                 Draw(TRIANGLE_VERTICES, ONE_INSTANCE), EndRenderPass, Submit(1), Present(t)];
    CountWhereOne(e, IsDraw, 4);
    CountWhereOne(e, IsSubmit, 6);
    CountWhereOne(e, IsPresent, 7);
  }
}

=== FILE: wgpu.dfy ===
/**
 * The part of the GPU library the renderer configures, as plain data: texture formats,
 * surface capabilities and configuration, the presentation errors, and the fixed
 * state of a render pipeline.
 */
module Wgpu {
  import opened Base

  /** A texture format, known to the model only by a code and whether it is sRGB-encoded. */
  datatype TextureFormat = TextureFormat(code: nat, srgb: bool)

  predicate IsSrgb(f: TextureFormat) { f.srgb }

  datatype PresentMode = AutoVsync | AutoNoVsync | Fifo | FifoRelaxed | Immediate | Mailbox

  datatype CompositeAlphaMode = Auto | Opaque | PreMultiplied | PostMultiplied | Inherit

  /** Only the usage the engine requests is modelled. */
  datatype TextureUsages = RenderAttachment

  /** What the surface supports on the chosen adapter, in the library's order of preference. */
  datatype SurfaceCapabilities = SurfaceCapabilities(
    formats: seq<TextureFormat>,
    presentModes: seq<PresentMode>,
    alphaModes: seq<CompositeAlphaMode>)

  datatype SurfaceConfiguration = SurfaceConfiguration(
    usage: TextureUsages,
    format: TextureFormat,
    width: U32,
    height: U32,
    presentMode: PresentMode,
    alphaMode: CompositeAlphaMode,
    viewFormats: seq<TextureFormat>)

  /** The ways acquiring the next presentable texture can fail. */
  datatype SurfaceError = Timeout | Outdated | Lost | OutOfMemory

  /** A presentable texture handed out by the surface for one frame. */
  datatype SurfaceTexture = SurfaceTexture(id: nat)

  datatype Color = Color(r: real, g: real, b: real, a: real)

  /** A half-open range `start..end`, as passed to a draw call. */
  datatype Range = Range(start: U32, end: U32)

  datatype PrimitiveTopology = PointList | LineList | LineStrip | TriangleList | TriangleStrip

  datatype FrontFace = Ccw | Cw

  datatype Face = Front | Back

  datatype PolygonMode = Fill | Line | Point

  datatype BlendState = Replace | AlphaBlending | PremultipliedAlphaBlending

  /** Colour-write mask with every channel enabled (`ColorWrites::ALL`). */
  const WRITE_ALL: nat := 0xF

  datatype ColorTargetState = ColorTargetState(format: TextureFormat, blend: Option<BlendState>, writeMask: nat)

  /** The fixed state a render pipeline is compiled with; the shader program itself is not modelled. */
  datatype RenderPipeline = RenderPipeline(
    vertexEntry: string,
    fragmentEntry: string,
    vertexBuffers: nat,
    target: ColorTargetState,
    topology: PrimitiveTopology,
    frontFace: FrontFace,
    cullMode: Option<Face>,
    polygonMode: PolygonMode,
    depthStencil: bool,
    sampleCount: nat,
    sampleMask: nat,
    alphaToCoverage: bool)
}

=== FILE: window.dfy ===
/** Window creation and the dimension check every resize goes through. */
module CoreWindow {
  import opened Base
  import opened Winit
  import opened CoreError

  /**
   * What the engine knows of its OS window: its identity, its title and the logical
   * inner size it last asked for (through the builder or `set_inner_size`).
   */
  datatype Window = Window(id: WindowId, title: string, innerSize: LogicalSize)

  /** The error of `create`: the engine's own check, or the OS refusing to build the window. */
  datatype CreateError = Engine(error: EngineError) | Os(code: nat)

  /**
   * `dimensions_valid`: a size is usable exactly when it encloses a non-empty area,
   * which for unsigned components means both are positive.
   */
  predicate DimensionsValid(d: LogicalSize)
    ensures DimensionsValid(d) <==> d.width * d.height > 0
  {
    d.width > 0 && d.height > 0
  }

  /** The documentation example of `dimensions_valid`. */
  lemma DimensionsValidExample()
    ensures DimensionsValid(LogicalSize(800, 600))
    ensures !DimensionsValid(LogicalSize(0, 600))
  {
  }

  /**
   * `create(dimensions, name, event_loop)`. `build` is the OS's answer to building the
   * window: the new window's identity, or an OS error code.
   */
  function Create(dimensions: LogicalSize, name: string, build: Result<WindowId, nat>): (r: Result<Window, CreateError>)
    ensures !DimensionsValid(dimensions) ==> r == Err(Engine(DimensionError))
    ensures DimensionsValid(dimensions) && build.Err? ==> r == Err(Os(build.error))
    ensures r.Ok? <==> DimensionsValid(dimensions) && build.Ok?
    ensures r.Ok? ==> r.value.id == build.value && r.value.title == name && r.value.innerSize == dimensions
  {
    if !DimensionsValid(dimensions) then Err(Engine(DimensionError))
    else match build
      case Err(code) => Err(Os(code))
      case Ok(id) => Ok(Window(id, name, dimensions))
  }

  /** Invalid dimensions are refused before the OS is asked for a window: its answer is never consulted. */
  lemma CreateChecksBeforeBuilding(dimensions: LogicalSize, name: string, b1: Result<WindowId, nat>, b2: Result<WindowId, nat>)
    requires !DimensionsValid(dimensions)
    ensures Create(dimensions, name, b1) == Create(dimensions, name, b2)
    ensures Create(dimensions, name, b1).Err? && Create(dimensions, name, b1).error.Engine?
  {
  }
}

=== FILE: winit.dfy ===
/**
 * The part of the windowing library the engine talks to, as plain data: logical and
 * physical sizes, window identity, the event stream and the loop's control flow.
 */
module Winit {
  import opened Base

  /** A size in logical (scale-independent) units, `LogicalSize<u32>`. */
  datatype LogicalSize = LogicalSize(width: U32, height: U32)

  /** A size in physical pixels, `PhysicalSize<u32>`, as reported by the OS. */
  datatype PhysicalSize = PhysicalSize(width: U32, height: U32)

  /** Identity of an OS window; events carry it so that handlers can filter them. */
  datatype WindowId = WindowId(raw: nat)

  /** The event loop's scheduling mode. `ExitWithCode` stops the loop. */
  datatype ControlFlow = Poll | Wait | ExitWithCode(code: int)

  /** The window events the engine distinguishes; every other kind is `OtherWindowEvent`. */
  datatype WindowEvent =
    | CloseRequested
    | Resized(size: PhysicalSize)
    | ScaleFactorChanged(scaleFactor: real, newInnerSize: PhysicalSize)
    | OtherWindowEvent(kind: nat)

  /** The loop-level events the engine distinguishes; every other kind is `OtherEvent`. */
  datatype Event =
    | WindowEvent(windowId: WindowId, event: WindowEvent)
    | MainEventsCleared
    | RedrawRequested(redrawId: WindowId)
    | OtherEvent(kind: nat)

  /**
   * `PhysicalSize::to_logical(scale_factor)` with a `u32` target: a floating-point
   * conversion that the model takes as a parameter and never looks inside.
   */
  type ToLogical = (PhysicalSize, real) -> LogicalSize
}
